=== FILE: README.md ===
# Raster-scan controller: a Dafny model

This project models the control logic of a two-axis stage raster scanner
with a spectrometer. The controller exists in two forms:

- `microscope_scan.py` drives the hardware over a 51-by-51 grid of cells.
- `app.py` is a web application. It runs a simulated 10-by-10 scan in a
  worker thread and lets clients start it, stop it and poll its status.

Both visit the grid in the same boustrophedon ("snake") order. Row 1 runs
left to right, row 2 right to left, and so on. Each 1-based cell
`(row, col)` maps to stage targets in nanometres (`Stage.TargetOf`):

- `x = origin_x + (col - 1) * spacing`
- `y = origin_y + (row - 1) * spacing`

Modules, in dependency order:

- `SnakePath` (`snake_path.dfy`): `generate_snake_order`, plus the inverse
  index `SnakeIndex`. It proves the order is a permutation of the grid, its
  row and column pattern, adjacency of consecutive cells and the start corner.
- `Stage` (`stage.dfy`): the cell-to-target map `TargetOf` and its
  inverse `CellOf` on the target lattice, and the stand-alone scan's
  constants.
- `Motion` (`motion.dfy`): `wait_for_parallel_move` and `move_pdxc2_parallel`.
  The hardware is a poll trace: each poll holds the two axis readings and
  the elapsed time the clock reports after them. The model records the
  commands sent to the controllers.
- `IntensityGrid` (`intensity_grid.dfy`): the zero-initialised intensity
  matrix, one-cell writes, and the invariant "filled up to step k" of a
  scan along a path of distinct cells.
- `MicroscopeScan` (`microscope_scan.dfy`): the grid loop of `main`. It
  moves to the start corner, then for each cell of the snake order moves
  there, waits, and stores the cell's integrated intensity.
- `ScanApp` (`scan_app.dfy`): the web controller's state and its
  operations:
  - `start_scan` and `stop_scan` switch a running flag;
  - `get_status` shows the last ten log entries;
  - `add_status_message` appends to the log;
  - the `run_scan` worker checks the flag at the top of every iteration,
    publishes progress and position, writes one grid cell per visited cell,
    and always clears the flag at the end.

How the environment is modelled:

- The worker runs in a thread while requests arrive. The model is
  sequential: a stop request lands at a checkpoint `stopAt`.
  - Checkpoint `k < 100` is the flag test at the top of iteration k.
  - Checkpoint `100` is the `if scan_running` test after the loop.
  - A larger value means no stop arrives.
- Each iteration's spectrum acquisition is an input. It either yields an
  integrated intensity or raises an exception, which the worker's handler
  logs.
- The progress percentage of each step is also an input. It is bound to
  the values the source's floating-point expression can produce (see
  `FloatPercentage`).

`run_scan` builds its snake order inline rather than calling
`generate_snake_order`. The two loops are the same, so the model uses the
single definition `SnakePath.SnakeOrder` for both.

## Model

| member | source | states |
|---|---|---|
| SnakePath.GenerateSnakeOrder | microscope_scan.py:115-121 | The nested row/column loops produce the snake order. It has n*n cells for n >= 1 and none for n <= 0, because the row range is then empty. |
| SnakePath.SnakeOrderLength | microscope_scan.py:115-121 | The order has n*n entries for a positive size and 0 otherwise. |
| SnakePath.SnakeOrderRow | microscope_scan.py:117-119 | Row r occupies indices (r-1)*n .. r*n-1. Its columns run 1..n when r is odd and n..1 when r is even. |
| SnakePath.SnakeOrderEntry | microscope_scan.py:116-120 | Every entry is a grid cell, and SnakeIndex of the entry at index k is k. |
| SnakePath.SnakeOrderVisits | microscope_scan.py:116-120 | Every grid cell is in the order, at index SnakeIndex(n, c). |
| SnakePath.SnakeIndexInjective | microscope_scan.py:116-120 | Two grid cells with the same index are the same cell. |
| SnakePath.SnakeOrderOnGrid | microscope_scan.py:116-120 | Every cell of the order lies in the n-by-n grid. |
| SnakePath.SnakeOrderIsPermutation | microscope_scan.py:116-120 | No cell occurs twice, and a cell occurs exactly when it is in the grid. |
| SnakePath.SnakeOrderVisitsOnce | microscope_scan.py:116-120 | The multiset count of a cell is 1 for grid cells and 0 for all others. |
| SnakePath.SnakeOrderStart | microscope_scan.py:117-120 | For n >= 1 the order starts at (1, 1). |
| SnakePath.SnakeOrderAdjacent | microscope_scan.py:117-120 | Consecutive cells are at Manhattan distance exactly 1. |
| SnakePath.SnakeOrderRowsAscend | microscope_scan.py:117 | Rows never decrease along the order. |
| Stage.CellOf | microscope_scan.py:191-192 | Recovers the cell of a target. It returns a cell exactly when both offsets from the origin are multiples of the spacing. |
| Stage.TargetRoundTrip | microscope_scan.py:191-192 | Mapping a cell to its target and back gives the same cell. |
| Stage.CellRoundTrip | microscope_scan.py:191-192 | A target on the lattice is the target of the cell recovered from it. |
| Stage.TargetInjective | microscope_scan.py:191-192 | With a positive spacing, distinct cells have distinct targets. |
| Stage.TargetStep | microscope_scan.py:191-192 | One column right moves X by one spacing. One row down moves Y by one spacing and leaves X alone. |
| Stage.MainTargetsInRange | microscope_scan.py:190-192 | With 51 cells, 100000 nm spacing and origin -2500000, every target lies in [-2500000, 2500000] on both axes. Every target therefore fits the signed 32-bit argument it is converted to at microscope_scan.py:72. |
| Stage.MainTargetLandmarks | microscope_scan.py:161-162 | Cell (26, 26) maps to (0, 0), (1, 1) to the lower corner and (51, 51) to the upper corner. |
| Motion.WaitForParallelMove | microscope_scan.py:75-89 | The wait stops at the first poll where both deltas are strictly below the tolerance or the clock has passed the timeout. Convergence is checked before the timeout. A delta equal to the tolerance does not converge. The outcome is Converged exactly when the last poll is within tolerance. A timeout is returned as an outcome, never raised. It applies to every trace on which the loop ends, including one that converges before the timeout. |
| Motion.PositionRequests | microscope_scan.py:78-79 | Each poll requests X and then Y: 2 requests per poll, alternating X and Y. |
| Motion.MoveParallel | microscope_scan.py:91-94 | Both targets are set and both moves started, X then Y, before any position request. Only position requests follow, two per poll, until the wait's first ending poll. |
| IntensityGrid.Zeros | microscope_scan.py:181 | The new grid is n-by-n and all zero. |
| IntensityGrid.Write | microscope_scan.py:196 | The grid keeps its shape and the written entry holds the value. |
| IntensityGrid.WriteFrame | microscope_scan.py:196 | A write changes no other entry. |
| IntensityGrid.FilledAtStart | microscope_scan.py:181 | The zero grid is "filled up to step 0" along any path of grid cells. |
| IntensityGrid.FillStep | microscope_scan.py:190-196 | Writing step k's value at step k's cell of a path of distinct cells extends the filled prefix to k+1. |
| IntensityGrid.FilledComplete | microscope_scan.py:190-196 | After every step of the snake order, each cell holds the value of the one step that visited it. |
| IntensityGrid.FilledCell | app.py:191-222 | After k steps of the snake order, a cell holds its step's value if SnakeIndex < k, and is still 0 otherwise. |
| MicroscopeScan.VisitCell | microscope_scan.py:190-196 | One iteration sends both axes to the cell's target: it sets both targets and starts both moves, X then Y, and then only polls. It writes that step's intensity at that cell. The wait ends at the first poll that ends it, and converges exactly when that poll is within tolerance. |
| MicroscopeScan.ScanLoop | microscope_scan.py:190-196 | Over a path of distinct cells: move k sets both axes' targets to cell k's target before any poll, and every step's value is stored at its cell. Each wait ends at the first ending poll of its trace and converges exactly when that poll is within tolerance. |
| MicroscopeScan.ScanPath | microscope_scan.py:176-196 | The move to the start position comes first, then one move per path cell, in path order. Each move sets both controllers' targets to its own target and starts both axes before polling. Every wait settles at its first ending poll, and every step's value is stored at its cell. |
| MicroscopeScan.RasterScan | microscope_scan.py:176-196 | The first move sends both controllers to the origin, and move k+1 to the target of snake cell k, before any poll. Every wait settles at its first ending poll. Every grid cell ends up holding the intensity of the step that visited it. |
| MicroscopeScan.ScanSample | microscope_scan.py:160-196 | With the scan's constants (51 cells, 100000 nm, origin -2500000, tolerance 50, 10 s timeout), every one of the 51*51 cells receives its own step's intensity, and every move commands its own target before polling and settles at its first ending poll. |
| ScanApp.StartScan | app.py:37-45 | While running, it fails with "Scan already running" and leaves the state unchanged. Otherwise it sets the flag, changes nothing else and succeeds. |
| ScanApp.StopScan | app.py:49-54 | While running, it clears the flag, changes nothing else and succeeds with "Scan stopping...". Otherwise it fails with "No scan running" and leaves the state unchanged. |
| ScanApp.InitialStatus | app.py:17-23 | At start-up the controller is idle with zero progress and position, and shows only the ready entry. |
| ScanApp.InitialControls | app.py:17-54 | From the start-up state a stop is refused and changes nothing. The first start is accepted and raises only the flag. |
| ScanApp.StartThenStop | app.py:37-54 | Starting an idle controller and then stopping it restores the original state. |
| ScanApp.DoubleStart | app.py:37-45 | Of two start requests in a row on an idle controller, exactly one succeeds. |
| ScanApp.RecentMessages | app.py:60 | The window has at most ten entries. They are the log's most recent suffix, in log order. |
| ScanApp.GetStatus | app.py:57-65 | The status shows the flag, progress and position unchanged, plus the last at most ten log entries in order. It shows the whole log when the log has ten entries or fewer. |
| ScanApp.AddStatusMessage | app.py:121-124 | The message is appended as the newest entry, and nothing but the log changes. |
| ScanApp.RecentSlide | app.py:60 | After one append, the ten-entry window is the old window plus the new message, trimmed to ten, and the new message is last. |
| ScanApp.RecentAfterAdd | app.py:121-124 | After adding a message, the status window shows it as the newest entry and has slid by one. |
| ScanApp.PercentageProperties | app.py:199 | The values FloatPercentage admits stay in 0..100 and do not decrease from one step to a later one. These values include every result of the float expression when the total is at most 2^32, as for `run_scan`'s total of 100. |
| ScanApp.PercentageRange | app.py:199 | Every step's value lies in 0..100, and the last step's value is exactly 100. |
| ScanApp.StepLogReportsOnly | app.py:202-214 | The loop's entries number two per iteration and contain neither a completion nor an error entry. |
| ScanApp.BeginStep | app.py:196-214 | The iteration publishes the cell's row, column and percentage and the cell's stage position. It logs "moving" and then "collecting", and keeps the flag, the total and the published grid. |
| ScanApp.Step | app.py:192-226 | The iteration halts with a stop, leaving a state that is unchanged except for the flag and one "stopped" entry, when the flag is clear (or a stop lands now). It halts with the exception when the acquisition raises. Otherwise it writes exactly that cell and publishes the new grid. |
| ScanApp.Iterate | app.py:191-228 | The loop writes a prefix of the path. Every written step had a successful acquisition. It ends by exhausting the path (flag unchanged), by a stop at the stop's checkpoint, or by the raising step. It never runs past a stop. |
| ScanApp.IterateFills | app.py:222 | Along a path of distinct cells, the loop's grid is filled up to the number of written steps. |
| ScanApp.IterateTotal | app.py:177 | The loop keeps the total set before it. |
| ScanApp.IterateLog | app.py:191-214 | The loop only appends: two entries for each started iteration, in order, then "stopped" if it was stopped. |
| ScanApp.IteratePosition | app.py:196-209 | The published position, row, column and percentage are those of the last started cell. If no cell started, they are unchanged. |
| ScanApp.IterateGridImage | app.py:222-226 | The published grid is the loop's grid when a cell was written, and unchanged otherwise. |
| ScanApp.Conclude | app.py:230-249 | After the loop the flag is always cleared. The completion entries and the final grid appear only when the path ran out and the flag is still set. An exception adds one error entry. Progress and position are kept. |
| ScanApp.Worker | app.py:170-249 | The flag ends clear. The written steps are a prefix no longer than the path and ending before any stop checkpoint. A stop ends at its checkpoint and a failure at its raising step. The grid is filled up to the written steps. |
| ScanApp.WorkerLog | app.py:176-249 | The log gains "initializing", two entries per started cell, and one closing group. The group is "stopped", the error, the two completion entries, or nothing when the path ran out but a stop landed on the final test. The total equals the path length. |
| ScanApp.WorkerReports | app.py:230-246 | The old log is kept as a prefix and the first new entry is "initializing". Completion is logged exactly when the path ran out and no stop hit the final test. An error entry appears exactly when an acquisition raised, and it is then the last entry. |
| ScanApp.ClosingReports | app.py:230-246 | From the shape of the worker's log: completion appears exactly when the scan completes, an error entry exactly when it failed, and the error is last. |
| ScanApp.WorkerPosition | app.py:196-209 | The worker leaves published the target, row, column and percentage of the last started cell. |
| ScanApp.WorkerGridImage | app.py:222-233 | The published grid is the worker's grid once a cell was written or the scan completed. Otherwise the earlier one is kept. |
| ScanApp.RunScan | app.py:170-249 | Over the 10-by-10 snake order: the flag ends clear, the total is 100 and the log grows. At most 100 cells are written, none at or after a stop checkpoint. The grid is filled up to the written steps. |
| ScanApp.RunScanStopped | app.py:191-194 | With a stop before step k < 100 and no earlier failure, exactly steps 0..k-1 run and their cells hold their intensities. Every other cell is still 0, the last entry is "stopped" and no completion is logged. |
| ScanApp.RunScanCompletes | app.py:230-241 | With no stop and no failure, all 100 cells are written, each with its own step's intensity. Completion is logged and the final grid is published. |
| ScanApp.RunScanProgress | app.py:199 | The published percentage stays in 0..100, and after a full pass it is 100. |
| ScanApp.RunScanThenStart | app.py:247-249 | Because the worker always clears the flag, a start request after a finished run is accepted. |

## Left out

- Device bindings are not modelled: DLL loading, enabling, homing, closed-loop mode, move parameters and the raw `GetPosition`/`SetTargetPosition` calls. They are foreign calls with no visible semantics. Axis readings enter as poll traces, and the model records the commands issued.
- The stand-alone scan's spectrometer setup and acquisition are not modelled, nor are `np.trapz` and `generate_simulated_spectrum`. They are floating-point numerics, randomness and device I/O. Each step's integrated intensity is an input (`real`), or an `Acquisition` that may raise in the web worker.
- Plotting, PNG generation, the saved heat-map file, CSV files and the image timestamps are left out. They are I/O. The published grid image is modelled as the grid it was drawn from.
- Flask routing, JSON encoding and HTTP headers are left out.
- Threads, `time.sleep` and wall-clock timestamps are left out. Start, stop and the worker are sequential transitions, and a stop is a checkpoint (`stopAt`).
- The wait's timeout is float seconds in the source. The model counts whole milliseconds: each poll's `elapsedMs` is the elapsed time rounded up, and the 10 s timeout is `DefaultTimeoutMs` = 10000. For a timeout that is a whole number of milliseconds, the test "elapsed > timeout" gives the same answer either way. Sub-millisecond timeouts are not modelled.
- Races are not modelled. An example is a new start accepted after a stop while the old worker thread is still running, because both threads then share the flag. The source has no locking, so there is no atomicity to verify.
- Log entries are a `Message` datatype. The `[HH:MM:SS]` prefix and the formatted text are left out.
- Exceptions other than from the acquisition are not modelled, for example from plotting. They would take the same `except`/`finally` path as a raising acquisition.
- `print` output, including the timeout notice in `wait_for_parallel_move`, is left out.
- Motion.WaitForParallelMove: requires a poll trace in which some poll converges or the clock has passed the timeout. The source loop ends on exactly these traces. On any other trace the source polls forever, and the model does not represent that.
- ScanApp.Worker: is stated for any path of distinct grid cells with one acquisition and one percentage per cell. `run_scan` uses the 10-by-10 snake order (ScanApp.RunScan).
- ScanApp.FloatPercentage: the percentage is an input bound to what the source's `int((idx + 1) / total * 100)` can yield, rather than derived from IEEE-754 arithmetic. The bound is: the exact floor of (idx+1)*100/total, or one less when that quotient is a whole number below 100. The relation holds every result only while the rounding error stays below 1/total, which is true for totals up to 2^32 (`run_scan` uses 100). For far larger totals it misses results. For example, with total 10^17 and idx total-2 the quotient rounds up to 1.0 and the expression yields 100. The relation is not proved against the floating-point computation.
- ScanApp.PercentageProperties: monotonicity is stated for strictly later steps only. At a single step the relation admits two values, so it does not fix the value published.
- Motion.SetClosedLoopTarget: records the target as an unbounded integer. The source converts it to a signed 32-bit integer, which would wrap outside that range. For the stand-alone scan's constants, Stage.MainTargetsInRange shows that every target stays inside that range.

=== FILE: intensity_grid.dfy ===
/**
  The intensity map: an n-by-n matrix of integrated intensities indexed by
  (row - 1, col - 1), created all zero and written one cell per visited
  grid cell, in snake order.
 */
module IntensityGrid {
  import opened SnakePath

  type Grid = seq<seq<real>>

  ghost predicate IsSquare(g: Grid, n: nat) {
    |g| == n && forall i :: 0 <= i < n ==> |g[i]| == n
  }

  /** A fresh all-zero grid. */
  function Zeros(n: nat): (g: Grid)
    ensures IsSquare(g, n)
    ensures forall i, j :: 0 <= i < n && 0 <= j < n ==> g[i][j] == 0.0
  {
    seq(n, _ => seq(n, _ => 0.0))
  }

  /** `grid[row - 1, col - 1] = v`: the grid keeps its shape and that entry takes v. */
  function Write(g: Grid, n: nat, c: Cell, v: real): (g': Grid)
    requires IsSquare(g, n) && InGrid(n, c)
    ensures IsSquare(g', n)
    ensures g'[c.row - 1][c.col - 1] == v
  {
    g[c.row - 1 := g[c.row - 1][c.col - 1 := v]]
  }

  /** A write touches no other entry. */
  lemma WriteFrame(g: Grid, n: nat, c: Cell, v: real, i: int, j: int)
    requires IsSquare(g, n) && InGrid(n, c)
    requires 0 <= i < n && 0 <= j < n && (i != c.row - 1 || j != c.col - 1)
    ensures Write(g, n, c, v)[i][j] == g[i][j]
  {
  }

  /**
    After the first k steps of a path: the cell visited at step t holds that
    step's value if t < k, and is still zero otherwise.  When the path is a
    permutation of the grid, this fixes every entry.
   */
  ghost predicate FilledUpTo(g: Grid, n: nat, path: seq<Cell>, values: seq<real>, k: nat) {
    && IsSquare(g, n)
    && k <= |values|
    && forall t :: 0 <= t < |path| ==>
         && InGrid(n, path[t])
         && g[path[t].row - 1][path[t].col - 1] == (if t < k then values[t] else 0.0)
  }

  /** Before any step, the zero grid is filled up to 0, whatever the values. */
  lemma FilledAtStart(n: nat, path: seq<Cell>, values: seq<real>)
    requires OnGrid(n, path)
    ensures FilledUpTo(Zeros(n), n, path, values, 0)
  {
  }

  /** Writing step k's value at step k's cell extends the filled prefix by one; no cell repeats, so no other step's entry moves. */
  lemma FillStep(g: Grid, n: nat, path: seq<Cell>, values: seq<real>, k: nat)
    requires FilledUpTo(g, n, path, values, k) && Distinct(path)
    requires k < |path| && k < |values|
    ensures InGrid(n, path[k])
    ensures FilledUpTo(Write(g, n, path[k], values[k]), n, path, values, k + 1)
  {
    var g' := Write(g, n, path[k], values[k]);
    forall t | 0 <= t < |path| && t != k
      ensures g'[path[t].row - 1][path[t].col - 1] == g[path[t].row - 1][path[t].col - 1]
    {
      assert path[t] != path[k];
      WriteFrame(g, n, path[k], values[k], path[t].row - 1, path[t].col - 1);
    }
  }

  /** Once every step of the snake order has run, every cell holds the value of the one step that visited it. */
  lemma FilledComplete(g: Grid, n: nat, values: seq<real>, c: Cell)
    requires FilledUpTo(g, n, SnakeOrder(n), values, |SnakeOrder(n)|)
    requires InGrid(n, c)
    ensures 0 <= SnakeIndex(n, c) < |SnakeOrder(n)| && SnakeOrder(n)[SnakeIndex(n, c)] == c
    ensures g[c.row - 1][c.col - 1] == values[SnakeIndex(n, c)]
  {
    SnakeOrderVisits(n, c);
  }

  /** After k steps of the snake order, a cell holds its step's value if its turn has come, and zero otherwise. */
  lemma FilledCell(g: Grid, n: nat, values: seq<real>, k: nat, c: Cell)
    requires FilledUpTo(g, n, SnakeOrder(n), values, k)
    requires InGrid(n, c)
    ensures 0 <= SnakeIndex(n, c) < |SnakeOrder(n)| && SnakeOrder(n)[SnakeIndex(n, c)] == c
    ensures g[c.row - 1][c.col - 1] == if SnakeIndex(n, c) < k then values[SnakeIndex(n, c)] else 0.0
  {
    SnakeOrderVisits(n, c);
  }
}

=== FILE: microscope_scan.dfy ===
/**
  The stand-alone raster scan: move to the start corner, then for every
  cell of the 51-by-51 snake order drive both axes to the cell's target,
  wait for convergence (or the timeout), and store the cell's integrated
  intensity in the grid.  Spectra arrive already integrated, one value per
  step; each move's wait sees its own poll trace.
 */
module MicroscopeScan {
  import opened SnakePath
  import opened Stage
  import opened Motion
  import opened IntensityGrid

  /** One commanded move: where both axes were sent, the commands issued, and how the wait ended. */
  datatype Move = Move(target: Position, commands: seq<Command>, outcome: WaitOutcome)

  /**
    The move's commands sent both axes to `move.target` and then only polled,
    and its wait ended at the first poll of its trace that ends it, converged
    exactly when within tolerance.
   */
  predicate Executed(trace: seq<Poll>, move: Move, tolerance: int, timeoutMs: int) {
    && IssuedFor(move.commands, move.target.x, move.target.y, move.outcome.polls)
    && SettledAt(trace, move.target.x, move.target.y, tolerance, timeoutMs, move.outcome)
  }

  /** The trace eventually ends a wait for `target`. */
  predicate Settles(trace: seq<Poll>, target: Position, tolerance: int, timeoutMs: int) {
    WaitEnds(trace, target.x, target.y, tolerance, timeoutMs)
  }

  /**
    One trace for the move to the start position and one for each cell of
    the path, each of which ends the wait for its own target.
   */
  predicate TracesSettle(polls: seq<seq<Poll>>, path: seq<Cell>, origin: Position, spacing: int, tolerance: int, timeoutMs: int) {
    && |polls| == |path| + 1
    && Settles(polls[0], origin, tolerance, timeoutMs)
    && forall k :: 0 <= k < |path| ==> Settles(polls[k + 1], TargetOf(origin, spacing, path[k]), tolerance, timeoutMs)
  }

  /**
    One iteration of the scan loop: drive both axes to the cell's target,
    wait, and write the step's intensity at the cell.
   */
  method VisitCell(n: nat, path: seq<Cell>, k: nat, origin: Position, spacing: int, tolerance: int, timeoutMs: int,
                   grid: Grid, intensities: seq<real>, trace: seq<Poll>) returns (grid': Grid, move: Move)
    requires Distinct(path) && k < |path| && k < |intensities|
    requires FilledUpTo(grid, n, path, intensities, k)
    requires Settles(trace, TargetOf(origin, spacing, path[k]), tolerance, timeoutMs)
    ensures FilledUpTo(grid', n, path, intensities, k + 1)
    ensures move.target == TargetOf(origin, spacing, path[k])
    ensures Executed(trace, move, tolerance, timeoutMs)
  {
    var target := TargetOf(origin, spacing, path[k]);
    var commands, outcome := MoveParallel(target.x, target.y, tolerance, timeoutMs, trace);
    FillStep(grid, n, path, intensities, k);
    grid' := Write(grid, n, path[k], intensities[k]);
    move := Move(target, commands, outcome);
  }

  /**
    The loop over a path of distinct cells: `traces[k]` serves step k's
    move and `intensities[k]` is step k's integrated value.
   */
  method ScanLoop(n: nat, path: seq<Cell>, origin: Position, spacing: int, tolerance: int, timeoutMs: int,
                  intensities: seq<real>, traces: seq<seq<Poll>>) returns (grid: Grid, moves: seq<Move>)
    requires OnGrid(n, path) && Distinct(path)
    requires |intensities| == |traces| == |path|
    requires forall k :: 0 <= k < |traces| ==> Settles(traces[k], TargetOf(origin, spacing, path[k]), tolerance, timeoutMs)
    ensures |moves| == |path|
    ensures forall k :: 0 <= k < |path| ==> moves[k].target == TargetOf(origin, spacing, path[k])
    ensures forall k :: 0 <= k < |path| ==> Executed(traces[k], moves[k], tolerance, timeoutMs)
    ensures FilledUpTo(grid, n, path, intensities, |path|)
  {
    grid := Zeros(n);
    moves := [];
    FilledAtStart(n, path, intensities);
    var k := 0;
    while k < |path|
      invariant 0 <= k <= |path|
      invariant |moves| == k
      invariant forall t :: 0 <= t < k ==> moves[t].target == TargetOf(origin, spacing, path[t])
      invariant forall t :: 0 <= t < k ==> Executed(traces[t], moves[t], tolerance, timeoutMs)
      invariant FilledUpTo(grid, n, path, intensities, k)
    {
      var move;
      grid, move := VisitCell(n, path, k, origin, spacing, tolerance, timeoutMs, grid, intensities, traces[k]);
      moves := moves + [move];
      k := k + 1;
    }
  }

  /**
    A scan along any path of distinct grid cells: the move to the start
    position, served by `polls[0]`, then the loop, step k's move served by
    `polls[k + 1]`.
   */
  method ScanPath(n: nat, path: seq<Cell>, origin: Position, spacing: int, tolerance: int, timeoutMs: int,
                  intensities: seq<real>, polls: seq<seq<Poll>>) returns (grid: Grid, moves: seq<Move>)
    requires OnGrid(n, path) && Distinct(path) && |intensities| == |path|
    requires TracesSettle(polls, path, origin, spacing, tolerance, timeoutMs)
    ensures |moves| == |polls|
    ensures moves[0].target == origin
    ensures forall k :: 0 <= k < |path| ==> moves[k + 1].target == TargetOf(origin, spacing, path[k])
    ensures forall k :: 0 <= k < |moves| ==> Executed(polls[k], moves[k], tolerance, timeoutMs)
    ensures FilledUpTo(grid, n, path, intensities, |path|)
  {
    var toStart, first := MoveParallel(origin.x, origin.y, tolerance, timeoutMs, polls[0]);
    var later := polls[1..];
    assert forall k :: 0 <= k < |path| ==> later[k] == polls[k + 1];
    var rest;
    grid, rest := ScanLoop(n, path, origin, spacing, tolerance, timeoutMs, intensities, later);
    moves := [Move(origin, toStart, first)] + rest;
    forall k | 0 <= k < |moves|
      ensures Executed(polls[k], moves[k], tolerance, timeoutMs)
      ensures k > 0 ==> moves[k].target == TargetOf(origin, spacing, path[k - 1])
    {
      if k > 0 {
        assert moves[k] == rest[k - 1] && polls[k] == later[k - 1];
      }
    }
  }

  /** The scan over the n-by-n snake order, as `main` runs it. */
  method RasterScan(n: nat, origin: Position, spacing: int, tolerance: int, timeoutMs: int,
                    intensities: seq<real>, polls: seq<seq<Poll>>) returns (grid: Grid, moves: seq<Move>)
    requires |intensities| == n * n
    requires TracesSettle(polls, SnakeOrder(n), origin, spacing, tolerance, timeoutMs)
    ensures |SnakeOrder(n)| == n * n
    ensures |moves| == |polls|
    ensures moves[0].target == origin
    ensures FilledUpTo(grid, n, SnakeOrder(n), intensities, n * n)
    ensures forall k :: 0 <= k < n * n ==> moves[k + 1].target == TargetOf(origin, spacing, SnakeOrder(n)[k])
    ensures forall k :: 0 <= k < |moves| ==> Executed(polls[k], moves[k], tolerance, timeoutMs)
    ensures forall c :: InGrid(n, c) ==>
              0 <= SnakeIndex(n, c) < |intensities| && grid[c.row - 1][c.col - 1] == intensities[SnakeIndex(n, c)]
  {
    var path := GenerateSnakeOrder(n);
    SnakeOrderOnGrid(n);
    SnakeOrderIsPermutation(n);
    grid, moves := ScanPath(n, path, origin, spacing, tolerance, timeoutMs, intensities, polls);
    forall c | InGrid(n, c)
      ensures 0 <= SnakeIndex(n, c) < |intensities| && grid[c.row - 1][c.col - 1] == intensities[SnakeIndex(n, c)]
    {
      FilledComplete(grid, n, intensities, c);
    }
  }

  /**
    The stand-alone scan with its constants: 51-by-51 cells, 100000 nm apart,
    starting at (-2500000, -2500000), tolerance 50 and a 10 s timeout per move.
   */
  method ScanSample(intensities: seq<real>, polls: seq<seq<Poll>>) returns (grid: Grid, moves: seq<Move>)
    requires |intensities| == GridSize * GridSize
    requires TracesSettle(polls, SnakeOrder(GridSize), MainOrigin, GridSpacingNm, DefaultTolerance, DefaultTimeoutMs)
    ensures |moves| == |polls| && moves[0].target == MainOrigin
    ensures forall k :: 0 <= k < |moves| ==> Executed(polls[k], moves[k], DefaultTolerance, DefaultTimeoutMs)
    ensures IsSquare(grid, GridSize)
    ensures forall c :: InGrid(GridSize, c) ==>
              0 <= SnakeIndex(GridSize, c) < |intensities| && grid[c.row - 1][c.col - 1] == intensities[SnakeIndex(GridSize, c)]
  {
    grid, moves := RasterScan(GridSize, MainOrigin, GridSpacingNm, DefaultTolerance, DefaultTimeoutMs, intensities, polls);
  }
}

=== FILE: motion.dfy ===
/**
  Two-axis motion coordination: both axes are given their targets first,
  then both positions are polled until both lie strictly within the
  tolerance or the clock has passed the timeout.  A timeout is reported,
  never raised.

  The hardware is abstracted as a poll trace: the i-th poll carries the
  two axis readings and the elapsed time (milliseconds since the wait
  began) as read by the clock after those readings.
 */
module Motion {

  datatype Axis = X | Y

  /** Commands sent to the axis controllers, in the order they are issued. */
  datatype Command =
    | SetClosedLoopTarget(axis: Axis, position: int)
    | MoveStart(axis: Axis)
    | RequestPosition(axis: Axis)

  /** One iteration of the polling loop: both readings, then the clock. */
  datatype Poll = Poll(x: int, y: int, elapsedMs: int)

  /** How a wait ended, after how many polls, and with which last deltas. */
  datatype WaitOutcome =
    | Converged(polls: nat, dx: nat, dy: nat)
    | TimedOut(polls: nat, dx: nat, dy: nat)

  const DefaultTolerance: int := 50
  const DefaultTimeoutMs: int := 10000

  function Abs(v: int): nat {
    if v < 0 then -v else v
  }

  /** Both axes strictly within tolerance: a delta equal to the tolerance does not count. */
  predicate Within(p: Poll, targetX: int, targetY: int, tolerance: int) {
    Abs(p.x - targetX) < tolerance && Abs(p.y - targetY) < tolerance
  }

  predicate Expired(p: Poll, timeoutMs: int) {
    p.elapsedMs > timeoutMs
  }

  /** A poll at which the loop leaves: converged, or (checked second) out of time. */
  predicate Ends(p: Poll, targetX: int, targetY: int, tolerance: int, timeoutMs: int) {
    Within(p, targetX, targetY, tolerance) || Expired(p, timeoutMs)
  }

  /** Some poll of the trace ends the wait: exactly the traces on which the polling loop terminates. */
  predicate WaitEnds(polls: seq<Poll>, targetX: int, targetY: int, tolerance: int, timeoutMs: int) {
    exists i :: 0 <= i < |polls| && Ends(polls[i], targetX, targetY, tolerance, timeoutMs)
  }

  /**
    The wait described by `outcome` ended at the first ending poll of the
    trace, and converged exactly when that poll is within tolerance.
   */
  predicate SettledAt(polls: seq<Poll>, targetX: int, targetY: int, tolerance: int, timeoutMs: int, outcome: WaitOutcome) {
    && 1 <= outcome.polls <= |polls|
    && (forall i :: 0 <= i < outcome.polls - 1 ==> !Ends(polls[i], targetX, targetY, tolerance, timeoutMs))
    && Ends(polls[outcome.polls - 1], targetX, targetY, tolerance, timeoutMs)
    && (outcome.Converged? <==> Within(polls[outcome.polls - 1], targetX, targetY, tolerance))
  }

  /**
    The polling loop.  It stops at the FIRST poll that ends the wait; convergence
    is checked before the timeout, so a poll that satisfies both counts as converged.
   */
  method WaitForParallelMove(targetX: int, targetY: int, tolerance: int, timeoutMs: int, polls: seq<Poll>)
    returns (outcome: WaitOutcome)
    requires WaitEnds(polls, targetX, targetY, tolerance, timeoutMs)
    ensures 1 <= outcome.polls <= |polls|
    ensures forall i :: 0 <= i < outcome.polls - 1 ==> !Ends(polls[i], targetX, targetY, tolerance, timeoutMs)
    ensures Ends(polls[outcome.polls - 1], targetX, targetY, tolerance, timeoutMs)
    ensures outcome.Converged? <==> Within(polls[outcome.polls - 1], targetX, targetY, tolerance)
    ensures outcome.dx == Abs(polls[outcome.polls - 1].x - targetX)
    ensures outcome.dy == Abs(polls[outcome.polls - 1].y - targetY)
  {
    ghost var w :| 0 <= w < |polls| && Ends(polls[w], targetX, targetY, tolerance, timeoutMs);
    var i := 0;
    while true
      invariant 0 <= i <= w
      invariant forall j :: 0 <= j < i ==> !Ends(polls[j], targetX, targetY, tolerance, timeoutMs)
      decreases w - i
    {
      var dx := Abs(polls[i].x - targetX);
      var dy := Abs(polls[i].y - targetY);
      if dx < tolerance && dy < tolerance {
        return Converged(i + 1, dx, dy);
      }
      if polls[i].elapsedMs > timeoutMs {
        return TimedOut(i + 1, dx, dy);
      }
      i := i + 1;
    }
  }

  /**
    The commands of one parallel move: both targets set and both moves
    started, X then Y, then nothing but two position requests per poll.
   */
  predicate IssuedFor(commands: seq<Command>, targetX: int, targetY: int, polls: nat) {
    && |commands| == 4 + 2 * polls
    && commands[..4] == [SetClosedLoopTarget(X, targetX), MoveStart(X), SetClosedLoopTarget(Y, targetY), MoveStart(Y)]
    && forall i :: 0 <= i < |commands| ==> (commands[i].RequestPosition? <==> i >= 4)
  }

  /** Two position requests per poll, X first. */
  function PositionRequests(polls: nat): (r: seq<Command>)
    ensures |r| == 2 * polls
    ensures forall i :: 0 <= i < |r| ==> r[i] == RequestPosition(if i % 2 == 0 then X else Y)
  {
    if polls == 0 then [] else PositionRequests(polls - 1) + [RequestPosition(X), RequestPosition(Y)]
  }

  /**
    A parallel move: both targets are set and both moves started before the
    first position is requested, then the wait runs to its first ending poll.
   */
  method MoveParallel(targetX: int, targetY: int, tolerance: int, timeoutMs: int, polls: seq<Poll>)
    returns (commands: seq<Command>, outcome: WaitOutcome)
    requires WaitEnds(polls, targetX, targetY, tolerance, timeoutMs)
    ensures |commands| == 4 + 2 * outcome.polls
    ensures commands[..4] == [SetClosedLoopTarget(X, targetX), MoveStart(X), SetClosedLoopTarget(Y, targetY), MoveStart(Y)]
    ensures forall i :: 0 <= i < |commands| ==> (commands[i].RequestPosition? <==> i >= 4)
    ensures 1 <= outcome.polls <= |polls|
    ensures forall i :: 0 <= i < outcome.polls - 1 ==> !Ends(polls[i], targetX, targetY, tolerance, timeoutMs)
    ensures Ends(polls[outcome.polls - 1], targetX, targetY, tolerance, timeoutMs)
    ensures outcome.Converged? <==> Within(polls[outcome.polls - 1], targetX, targetY, tolerance)
  {
    var issued := [SetClosedLoopTarget(X, targetX), MoveStart(X), SetClosedLoopTarget(Y, targetY), MoveStart(Y)];
    outcome := WaitForParallelMove(targetX, targetY, tolerance, timeoutMs, polls);
    commands := issued + PositionRequests(outcome.polls);
  }
}

=== FILE: scan_app.dfy ===
/**
  The web application's scan controller: a running flag switched by the
  start and stop requests, an append-only status log of which observers
  see the last ten entries, and the simulated scan worker that walks a
  10-by-10 snake order, publishing progress, position and the grid after
  every cell, and always clears the running flag when it ends.

  The worker's interaction with concurrent requests is modelled
  sequentially: a stop request lands at one checkpoint (`stopAt`), where
  checkpoint k < 100 is the flag test at the top of iteration k and
  checkpoint 100 is the flag test after the loop; a larger value means no
  stop arrives.  Each step's acquisition either yields an integrated
  intensity or raises.
 */
module ScanApp {
  import opened SnakePath
  import opened Stage
  import opened IntensityGrid

  const ScanGridSize: int := 10
  const ScanSpacingNm: int := 100000
  const ScanOrigin: Position := Position(-2500000, -2500000)
  const StatusWindow: int := 10

  /** Status log entries (the wall-clock prefix is not modelled). */
  datatype Message =
    | Ready
    | Initializing
    | StoppedByUser
    | MovingTo(step: int, total: int, row: int, col: int)
    | CollectingAt(step: int, total: int)
    | Completed
    | HeatmapSaved
    | ScanError(detail: string)

  datatype Progress = Progress(row: int, col: int, total: int, percentage: int)

  /** The shared status: flag, progress, log, position and the last published grid. */
  datatype AppState = AppState(
    running: bool,
    progress: Progress,
    messages: seq<Message>,
    position: Position,
    gridImage: Option<Grid>)

  const InitialState: AppState :=
    AppState(false, Progress(0, 0, 0, 0), [Ready], Position(0, 0), None)

  datatype ReplyStatus = Success | Error
  datatype Reply = Reply(status: ReplyStatus, message: string)

  /** What an observer sees. */
  datatype StatusView = StatusView(running: bool, messages: seq<Message>, progress: Progress, position: Position)

  /** Everything but the running flag agrees. */
  predicate SameExceptFlag(a: AppState, b: AppState) {
    a.progress == b.progress && a.messages == b.messages && a.position == b.position && a.gridImage == b.gridImage
  }

  /** Everything but the log agrees. */
  predicate SameExceptLog(a: AppState, b: AppState) {
    a.running == b.running && a.progress == b.progress && a.position == b.position && a.gridImage == b.gridImage
  }

  // ---------------------------------------------------------------------
  // Control surface

  /** Rejected while a scan runs; otherwise raises the flag and nothing else. */
  function StartScan(s: AppState): (r: (AppState, Reply))
    ensures r.1.status == Error <==> s.running
    ensures s.running ==> r.0 == s && r.1.message == "Scan already running"
    ensures !s.running ==> r.0.running && SameExceptFlag(r.0, s) && r.1.message == "Scan started"
  {
    if s.running then (s, Reply(Error, "Scan already running"))
    else (s.(running := true), Reply(Success, "Scan started"))
  }

  /** Rejected when no scan runs; otherwise lowers the flag and nothing else. */
  function StopScan(s: AppState): (r: (AppState, Reply))
    ensures r.1.status == Error <==> !s.running
    ensures !s.running ==> r.0 == s && r.1.message == "No scan running"
    ensures s.running ==> !r.0.running && SameExceptFlag(r.0, s) && r.1.message == "Scan stopping..."
  {
    if s.running then (s.(running := false), Reply(Success, "Scan stopping..."))
    else (s, Reply(Error, "No scan running"))
  }

  /** Starting an idle controller and stopping it again restores the original state. */
  lemma StartThenStop(s: AppState)
    requires !s.running
    ensures StopScan(StartScan(s).0) == (s, Reply(Success, "Scan stopping..."))
  {
  }

  /** Of two starts in a row, exactly one is accepted. */
  lemma DoubleStart(s: AppState)
    requires !s.running
    ensures (StartScan(s).1.status == Success) != (StartScan(StartScan(s).0).1.status == Success)
  {
  }

  /** At start-up the controller is idle and shows only the ready entry, with zero progress and position. */
  lemma InitialStatus()
    ensures GetStatus(InitialState) == StatusView(false, [Ready], Progress(0, 0, 0, 0), Position(0, 0))
  {
    var s := InitialState;
    assert s.messages == [Ready] && !s.running;
    var v := GetStatus(s);
    assert v.messages == s.messages;
  }

  /** At start-up a stop is refused and the first start is accepted, raising only the flag. */
  lemma InitialControls()
    ensures StopScan(InitialState).1.status == Error && StopScan(InitialState).0 == InitialState
    ensures StartScan(InitialState).1.status == Success && StartScan(InitialState).0 == InitialState.(running := true)
  {
  }

  /** The observer's window: the last ten log entries, oldest first. */
  function RecentMessages(log: seq<Message>): (w: seq<Message>)
    ensures |w| == if |log| < StatusWindow then |log| else StatusWindow
    ensures w == log[|log| - |w|..]
  {
    if |log| <= StatusWindow then log else log[|log| - StatusWindow..]
  }

  function GetStatus(s: AppState): (v: StatusView)
    ensures v.running == s.running && v.progress == s.progress && v.position == s.position
    ensures |v.messages| <= StatusWindow && |v.messages| <= |s.messages|
    ensures v.messages == s.messages[|s.messages| - |v.messages|..]
    ensures |s.messages| <= StatusWindow ==> v.messages == s.messages
  {
    StatusView(s.running, RecentMessages(s.messages), s.progress, s.position)
  }

  /** Appends one entry to the log; nothing else changes. */
  function AddStatusMessage(s: AppState, m: Message): (r: AppState)
    ensures r.messages == s.messages + [m]
    ensures SameExceptLog(r, s)
  {
    s.(messages := s.messages + [m])
  }

  /** The window can be maintained incrementally: it slides by one entry per message. */
  lemma RecentSlide(log: seq<Message>, m: Message)
    ensures RecentMessages(log + [m]) == RecentMessages(RecentMessages(log) + [m])
    ensures RecentMessages(log + [m])[|RecentMessages(log + [m])| - 1] == m
  {
    var all := log + [m];
    if |log| >= StatusWindow {
      var w := RecentMessages(log);
      var a, b := RecentMessages(all), RecentMessages(w + [m]);
      assert |a| == |b| == StatusWindow;
      forall i | 0 <= i < StatusWindow
        ensures a[i] == b[i]
      {
        if i < StatusWindow - 1 {
          assert a[i] == log[|log| - StatusWindow + 1 + i];
          assert b[i] == w[i + 1];
        }
      }
    }
  }

  /** Adding a message shows it as the newest entry of the window, which slides by one. */
  lemma RecentAfterAdd(s: AppState, m: Message)
    ensures GetStatus(AddStatusMessage(s, m)).messages == RecentMessages(GetStatus(s).messages + [m])
    ensures GetStatus(AddStatusMessage(s, m)).messages[|GetStatus(AddStatusMessage(s, m)).messages| - 1] == m
  {
    RecentSlide(s.messages, m);
  }

  // ---------------------------------------------------------------------
  // Progress percentage
  //
  // `run_scan` computes int((idx + 1) / total * 100) in binary floating
  // point.  Its exact value is the floor below; the rounded quotient can
  // leave the product just under a whole number, so where the exact value
  // is whole (and short of 100, where the quotient is exactly 1.0) the
  // truncation can land one lower.  The rounding error stays below 1/total
  // while total is at most 2^32, so there the relation below holds every
  // value the expression can yield (for run_scan's total of 100 in
  // particular); for far larger totals a quotient just under 1.0 can round
  // up to 1.0, which it misses.  The worker takes the value of each step as
  // an input that satisfies the relation.

  /** floor((idx + 1) * 100 / total). */
  function ExactPercentage(idx: int, total: int): int
    requires total > 0
  {
    ((idx + 1) * 100) / total
  }

  /** The values the floating-point expression can yield for 0-based step idx of total, for totals up to 2^32. */
  predicate FloatPercentage(idx: int, total: int, p: int)
    requires total > 0
  {
    || p == ExactPercentage(idx, total)
    || (p == ExactPercentage(idx, total) - 1 && ((idx + 1) * 100) % total == 0 && idx + 1 < total)
  }

  lemma DivMono(a: int, b: int, d: int)
    requires 0 <= a <= b && d > 0
    ensures a / d <= b / d
  {
    if a / d > b / d {
      MulLe(b / d + 1, a / d, d);
    }
  }

  lemma DivSelf(total: int)
    requires total > 0
    ensures (total * 100) / total == 100
  {
    var q, m := (total * 100) / total, (total * 100) % total;
    assert total * 100 == q * total + m;
    assert (100 - q) * total == m;
    if 100 - q >= 1 {
      MulLe(1, 100 - q, total);
    } else if 100 - q <= -1 {
      MulLe(100 - q, -1, total);
    }
  }

  /** A positive multiple of the divisor has a quotient of at least one. */
  lemma ExactMultiplePositive(a: int, d: int)
    requires a > 0 && d > 0 && a % d == 0
    ensures a / d >= 1
  {
    if a / d <= 0 {
      MulLe(a / d, 0, d);
    }
  }

  /** Below a multiple of the divisor, the quotient is strictly smaller. */
  lemma DivBelowMultiple(a: int, b: int, d: int)
    requires 0 <= a < b && d > 0 && b % d == 0
    ensures a / d < b / d
  {
    if a / d >= b / d {
      MulLe(b / d, a / d, d);
    }
  }

  /**
    Whatever the number of steps, values the relation admits never leave
    0..100, and strictly later steps never publish less.
   */
  lemma PercentageProperties(i: int, j: int, total: int, pi: int, pj: int)
    requires 0 <= i < j < total
    requires FloatPercentage(i, total, pi) && FloatPercentage(j, total, pj)
    ensures 0 <= pi <= pj <= 100
  {
    var a, b := (i + 1) * 100, (j + 1) * 100;
    DivMono(0, a, total);
    DivMono(a, b, total);
    DivMono(b, total * 100, total);
    DivSelf(total);
    if a % total == 0 {
      ExactMultiplePositive(a, total);
    }
    if b % total == 0 {
      DivBelowMultiple(a, b, total);
    }
  }

  /** The last step publishes exactly 100; every step publishes a value in 0..100. */
  lemma PercentageRange(i: int, total: int, p: int)
    requires 0 <= i < total
    requires FloatPercentage(i, total, p)
    ensures 0 <= p <= 100
    ensures i == total - 1 ==> p == 100
  {
    DivMono(0, (i + 1) * 100, total);
    DivMono((i + 1) * 100, total * 100, total);
    DivSelf(total);
  }

  // ---------------------------------------------------------------------
  // The scan worker

  /** Outcome of one acquisition: an integrated intensity, or an exception. */
  datatype Acquisition = Measured(intensity: real) | Raised(error: string)

  /** The intensities the grid receives, step by step. */
  function Intensities(acq: seq<Acquisition>): (v: seq<real>)
    ensures |v| == |acq|
    ensures forall t :: 0 <= t < |acq| && acq[t].Measured? ==> v[t] == acq[t].intensity
  {
    seq(|acq|, t requires 0 <= t < |acq| => if acq[t].Measured? then acq[t].intensity else 0.0)
  }

  /** Why the loop ended: the path ran out, the flag was found clear, or an acquisition raised. */
  datatype Ending = Exhausted | Stopped | Failed(error: string)

  /** The worker's result: final state, its local grid, the number of cells written, and the ending. */
  datatype Run = Run(state: AppState, grid: Grid, steps: nat, ending: Ending)

  /** Cells whose iteration began: the written ones, plus the one whose acquisition raised. */
  function Started(r: Run): nat {
    if r.ending.Failed? then r.steps + 1 else r.steps
  }

  /** The two log entries of iteration k: moving to its cell, then collecting there. */
  function StepEntries(path: seq<Cell>, k: nat): seq<Message>
    requires k < |path|
  {
    [MovingTo(k + 1, |path|, path[k].row, path[k].col), CollectingAt(k + 1, |path|)]
  }

  /** The entries of iterations lo..hi-1, in order. */
  function StepLog(path: seq<Cell>, lo: nat, hi: nat): seq<Message>
    requires lo <= hi <= |path|
    decreases hi - lo
  {
    if lo == hi then [] else StepEntries(path, lo) + StepLog(path, lo + 1, hi)
  }

  /** Loop entries are progress reports only: neither completion nor error entries. */
  lemma {:induction false} StepLogReportsOnly(path: seq<Cell>, lo: nat, hi: nat)
    requires lo <= hi <= |path|
    decreases hi - lo
    ensures |StepLog(path, lo, hi)| == 2 * (hi - lo)
    ensures Completed !in StepLog(path, lo, hi)
    ensures forall m :: m in StepLog(path, lo, hi) ==> !m.ScanError?
  {
    if lo < hi {
      StepLogReportsOnly(path, lo + 1, hi);
    }
  }

  /**
    The bookkeeping at the top of iteration k once the flag test passed:
    progress, the "moving" entry, the position, the "collecting" entry.
   */
  function BeginStep(path: seq<Cell>, s: AppState, k: nat, pct: seq<int>): (t: AppState)
    requires k < |path| && k < |pct|
    ensures t.running == s.running && t.gridImage == s.gridImage
    ensures t.progress.total == s.progress.total
    ensures t.progress.row == path[k].row && t.progress.col == path[k].col
    ensures t.progress.percentage == pct[k]
    ensures t.position == TargetOf(ScanOrigin, ScanSpacingNm, path[k])
    ensures t.messages == s.messages + StepEntries(path, k)
  {
    var cell := path[k];
    var s1 := AddStatusMessage(
      s.(progress := s.progress.(row := cell.row, col := cell.col, percentage := pct[k])),
      MovingTo(k + 1, |path|, cell.row, cell.col));
    AddStatusMessage(s1.(position := TargetOf(ScanOrigin, ScanSpacingNm, cell)), CollectingAt(k + 1, |path|))
  }

  /** Result of one loop iteration: carry on with a new state and grid, or leave the loop. */
  datatype Next = Continue(state: AppState, grid: Grid) | Halt(run: Run)

  /**
    Iteration k: test the flag (a stop landing at checkpoint k clears it
    first), publish progress and position, acquire, and write the cell.
   */
  function Step(n: nat, path: seq<Cell>, s: AppState, grid: Grid, k: nat, stopAt: nat, acq: seq<Acquisition>, pct: seq<int>): (x: Next)
    requires OnGrid(n, path) && |acq| == |path| == |pct| && k < |path|
    requires IsSquare(grid, n)
    ensures x.Halt? ==> x.run.steps == k && x.run.grid == grid && !x.run.ending.Exhausted?
    ensures x.Halt? && x.run.ending.Stopped? ==>
              && (stopAt == k || !s.running) && !x.run.state.running
              && x.run.state.messages == s.messages + [StoppedByUser]
              && x.run.state.progress == s.progress && x.run.state.position == s.position
              && x.run.state.gridImage == s.gridImage
    ensures x.Halt? && x.run.ending.Failed? ==>
              && s.running && stopAt != k && acq[k] == Raised(x.run.ending.error)
              && x.run.state == BeginStep(path, s, k, pct)
    ensures x.Continue? ==>
              && s.running && stopAt != k && acq[k].Measured?
              && x.grid == Write(grid, n, path[k], acq[k].intensity)
              && x.state == BeginStep(path, s, k, pct).(gridImage := Some(x.grid))
  {
    var s1 := if stopAt == k then StopScan(s).0 else s;
    if !s1.running then
      Halt(Run(AddStatusMessage(s1, StoppedByUser), grid, k, Stopped))
    else
      var s3 := BeginStep(path, s1, k, pct);
      match acq[k]
      case Raised(e) => Halt(Run(s3, grid, k, Failed(e)))
      case Measured(v) =>
        var g := Write(grid, n, path[k], v);
        Continue(s3.(gridImage := Some(g)), g)
  }

  /** Iterations k, k+1, ... of the scan loop. */
  function Iterate(n: nat, path: seq<Cell>, s: AppState, grid: Grid, k: nat, stopAt: nat, acq: seq<Acquisition>, pct: seq<int>): (r: Run)
    requires OnGrid(n, path) && |acq| == |path| == |pct| && k <= |path|
    requires IsSquare(grid, n)
    decreases |path| - k
    ensures k <= r.steps <= |path| && Started(r) <= |path|
    ensures IsSquare(r.grid, n) && (r.steps == k ==> r.grid == grid)
    ensures forall t :: k <= t < r.steps ==> acq[t].Measured?
    ensures r.ending.Failed? ==> acq[r.steps] == Raised(r.ending.error)
    ensures r.ending.Exhausted? ==> r.steps == |path| && r.state.running == s.running
    ensures r.ending.Stopped? ==> !r.state.running && (r.steps == stopAt || (r.steps == k && !s.running))
    ensures s.running && k <= stopAt ==> r.steps <= stopAt
    ensures r.ending.Failed? ==> r.steps != stopAt
  {
    if k == |path| then Run(s, grid, k, Exhausted)
    else
      match Step(n, path, s, grid, k, stopAt, acq, pct)
      case Halt(r) => r
      case Continue(s', g) => Iterate(n, path, s', g, k + 1, stopAt, acq, pct)
  }

  /** One unfolding of the loop: a halting iteration ends it, a continuing one hands over to the next. */
  lemma IterateUnfold(n: nat, path: seq<Cell>, s: AppState, grid: Grid, k: nat, stopAt: nat, acq: seq<Acquisition>, pct: seq<int>)
    requires OnGrid(n, path) && |acq| == |path| == |pct| && k < |path|
    requires IsSquare(grid, n)
    ensures var x := Step(n, path, s, grid, k, stopAt, acq, pct);
      Iterate(n, path, s, grid, k, stopAt, acq, pct) ==
        if x.Halt? then x.run else Iterate(n, path, x.state, x.grid, k + 1, stopAt, acq, pct)
  {
  }

  /** The grid the loop leaves: every cell written so far holds its step's intensity, the rest are untouched. */
  lemma {:induction false} IterateFills(n: nat, path: seq<Cell>, s: AppState, grid: Grid, k: nat, stopAt: nat, acq: seq<Acquisition>, pct: seq<int>)
    requires OnGrid(n, path) && Distinct(path) && |acq| == |path| == |pct| && k <= |path|
    requires FilledUpTo(grid, n, path, Intensities(acq), k)
    decreases |path| - k
    ensures var r := Iterate(n, path, s, grid, k, stopAt, acq, pct); FilledUpTo(r.grid, n, path, Intensities(acq), r.steps)
  {
    if k < |path| {
      var x := Step(n, path, s, grid, k, stopAt, acq, pct);
      if x.Continue? {
        FillStep(grid, n, path, Intensities(acq), k);
        IterateFills(n, path, x.state, x.grid, k + 1, stopAt, acq, pct);
      }
    }
  }

  /** The loop keeps the total that the worker set before it. */
  lemma {:induction false} IterateTotal(n: nat, path: seq<Cell>, s: AppState, grid: Grid, k: nat, stopAt: nat, acq: seq<Acquisition>, pct: seq<int>)
    requires OnGrid(n, path) && |acq| == |path| == |pct| && k <= |path|
    requires IsSquare(grid, n)
    decreases |path| - k
    ensures Iterate(n, path, s, grid, k, stopAt, acq, pct).state.progress.total == s.progress.total
  {
    var r := Iterate(n, path, s, grid, k, stopAt, acq, pct);
    if k < |path| {
      var x := Step(n, path, s, grid, k, stopAt, acq, pct);
      IterateUnfold(n, path, s, grid, k, stopAt, acq, pct);
      if x.Continue? {
        IterateTotal(n, path, x.state, x.grid, k + 1, stopAt, acq, pct);
      }
    }
  }

  /** Prepending iteration k's entries to the log of iterations k+1.. gives the log of iterations k.. */
  lemma StepLogCons(path: seq<Cell>, log: seq<Message>, k: nat, hi: nat, rest: seq<Message>, tail: seq<Message>)
    requires k < hi <= |path|
    requires rest == (log + StepEntries(path, k)) + StepLog(path, k + 1, hi) + tail
    ensures rest == log + StepLog(path, k, hi) + tail
  {
    assert StepLog(path, k, hi) == StepEntries(path, k) + StepLog(path, k + 1, hi);
    assert (log + StepEntries(path, k)) + StepLog(path, k + 1, hi) == log + (StepEntries(path, k) + StepLog(path, k + 1, hi));
  }

  /** The loop only appends to the log: two entries per started cell, then one more if it was stopped. */
  lemma {:induction false} IterateLog(n: nat, path: seq<Cell>, s: AppState, grid: Grid, k: nat, stopAt: nat, acq: seq<Acquisition>, pct: seq<int>)
    requires OnGrid(n, path) && |acq| == |path| == |pct| && k <= |path|
    requires IsSquare(grid, n)
    decreases |path| - k
    ensures var r := Iterate(n, path, s, grid, k, stopAt, acq, pct);
      r.state.messages == s.messages + StepLog(path, k, Started(r)) + (if r.ending.Stopped? then [StoppedByUser] else [])
  {
    var r := Iterate(n, path, s, grid, k, stopAt, acq, pct);
    var tail := if r.ending.Stopped? then [StoppedByUser] else [];
    if k < |path| {
      var x := Step(n, path, s, grid, k, stopAt, acq, pct);
      IterateUnfold(n, path, s, grid, k, stopAt, acq, pct);
      if x.Continue? {
        IterateLog(n, path, x.state, x.grid, k + 1, stopAt, acq, pct);
        assert r == Iterate(n, path, x.state, x.grid, k + 1, stopAt, acq, pct);
        assert x.state.messages == s.messages + StepEntries(path, k);
        StepLogCons(path, s.messages, k, Started(r), r.state.messages, tail);
      } else if x.run.ending.Failed? {
        assert r == x.run;
        assert StepLog(path, k, k + 1) == StepEntries(path, k);
      } else {
        assert r == x.run;
      }
    } else {
      assert r == Run(s, grid, k, Exhausted);
    }
  }

  /** What the loop publishes: the position and progress of the last started cell. */
  lemma {:induction false} IteratePosition(n: nat, path: seq<Cell>, s: AppState, grid: Grid, k: nat, stopAt: nat, acq: seq<Acquisition>, pct: seq<int>)
    requires OnGrid(n, path) && |acq| == |path| == |pct| && k <= |path|
    requires IsSquare(grid, n)
    decreases |path| - k
    ensures var r := Iterate(n, path, s, grid, k, stopAt, acq, pct);
      && (Started(r) == k ==> r.state.position == s.position && r.state.progress == s.progress)
      && (Started(r) > k ==>
            && r.state.position == TargetOf(ScanOrigin, ScanSpacingNm, path[Started(r) - 1])
            && r.state.progress.row == path[Started(r) - 1].row
            && r.state.progress.col == path[Started(r) - 1].col
            && r.state.progress.percentage == pct[Started(r) - 1])
  {
    if k < |path| {
      var x := Step(n, path, s, grid, k, stopAt, acq, pct);
      if x.Continue? {
        IteratePosition(n, path, x.state, x.grid, k + 1, stopAt, acq, pct);
      }
    }
  }

  /** The published grid is the loop's grid as of the last written cell. */
  lemma {:induction false} IterateGridImage(n: nat, path: seq<Cell>, s: AppState, grid: Grid, k: nat, stopAt: nat, acq: seq<Acquisition>, pct: seq<int>)
    requires OnGrid(n, path) && |acq| == |path| == |pct| && k <= |path|
    requires IsSquare(grid, n)
    decreases |path| - k
    ensures var r := Iterate(n, path, s, grid, k, stopAt, acq, pct);
      r.state.gridImage == if r.steps > k then Some(r.grid) else s.gridImage
  {
    if k < |path| {
      var x := Step(n, path, s, grid, k, stopAt, acq, pct);
      if x.Continue? {
        IterateGridImage(n, path, x.state, x.grid, k + 1, stopAt, acq, pct);
      }
    }
  }

  /**
    After the loop: the completion branch runs only when the path ran out
    and the flag is still set (a stop may land just before that test), an
    exception is logged, and in every case the flag is cleared.
   */
  function Conclude(r: Run, stopAt: nat, total: nat): (a: AppState)
    ensures !a.running
    ensures a.progress == r.state.progress && a.position == r.state.position
    ensures var completes := r.ending.Exhausted? && stopAt != total && r.state.running;
      && (completes ==> a.messages == r.state.messages + [Completed, HeatmapSaved] && a.gridImage == Some(r.grid))
      && (r.ending.Failed? ==> a.messages == r.state.messages + [ScanError(r.ending.error)] && a.gridImage == r.state.gridImage)
      && (!completes && !r.ending.Failed? ==> a.messages == r.state.messages && a.gridImage == r.state.gridImage)
  {
    var after :=
      match r.ending
      case Exhausted =>
        var t := if stopAt == total then StopScan(r.state).0 else r.state;
        if t.running then
          AddStatusMessage(AddStatusMessage(t.(gridImage := Some(r.grid)), Completed), HeatmapSaved)
        else t
      case Stopped => r.state
      case Failed(e) => AddStatusMessage(r.state, ScanError(e));
    after.(running := false)
  }

  /** Whether the completion branch runs: the path ran out and no stop landed on the final flag test. */
  predicate Completes(r: Run, stopAt: nat, total: nat) {
    r.ending.Exhausted? && stopAt != total
  }

  /** The entries the worker adds after the loop's own: one per way of ending. */
  function Closing(r: Run, stopAt: nat, total: nat): seq<Message> {
    match r.ending
    case Exhausted => if stopAt != total then [Completed, HeatmapSaved] else []
    case Stopped => [StoppedByUser]
    case Failed(e) => [ScanError(e)]
  }

  /**
    The worker body over a visitation order of distinct cells of the n-by-n grid: set the total, log, run the loop,
    complete if the flag is still set afterwards, log an exception, and
    in every case clear the flag.
   */
  function Worker(n: nat, path: seq<Cell>, s: AppState, stopAt: nat, acq: seq<Acquisition>, pct: seq<int>): (r: Run)
    requires OnGrid(n, path) && Distinct(path) && |acq| == |pct| == |path|
    requires s.running
    ensures !r.state.running
    ensures r.steps <= |acq| && Started(r) <= |acq| && Started(r) <= stopAt
    ensures forall t :: 0 <= t < r.steps ==> acq[t].Measured?
    ensures r.ending.Exhausted? ==> r.steps == |acq|
    ensures r.ending.Stopped? ==> r.steps == stopAt
    ensures r.ending.Failed? ==> acq[r.steps] == Raised(r.ending.error)
    ensures FilledUpTo(r.grid, n, path, Intensities(acq), r.steps)
  {
    var s0 := AddStatusMessage(s.(progress := s.progress.(total := |acq|)), Initializing);
    FilledAtStart(n, path, Intensities(acq));
    IterateFills(n, path, s0, Zeros(n), 0, stopAt, acq, pct);
    var r := Iterate(n, path, s0, Zeros(n), 0, stopAt, acq, pct);
    Run(Conclude(r, stopAt, |acq|), r.grid, r.steps, r.ending)
  }

  /**
    The worker's log: "initializing", two entries per started cell, then
    the closing entries; the progress total is the path length.
   */
  lemma WorkerLog(n: nat, path: seq<Cell>, s: AppState, stopAt: nat, acq: seq<Acquisition>, pct: seq<int>)
    requires OnGrid(n, path) && Distinct(path) && |acq| == |pct| == |path|
    requires s.running
    ensures var r := Worker(n, path, s, stopAt, acq, pct);
      && r.state.progress.total == |acq|
      && r.state.messages == s.messages + [Initializing] + StepLog(path, 0, Started(r)) + Closing(r, stopAt, |acq|)
  {
    var s0 := AddStatusMessage(s.(progress := s.progress.(total := |acq|)), Initializing);
    IterateLog(n, path, s0, Zeros(n), 0, stopAt, acq, pct);
    IterateTotal(n, path, s0, Zeros(n), 0, stopAt, acq, pct);
    var r := Iterate(n, path, s0, Zeros(n), 0, stopAt, acq, pct);
    assert Worker(n, path, s, stopAt, acq, pct) == Run(Conclude(r, stopAt, |acq|), r.grid, r.steps, r.ending);
    var a := Conclude(r, stopAt, |acq|);
    var head := s.messages + [Initializing] + StepLog(path, 0, Started(r));
    match r.ending
    case Stopped =>
      assert a.messages == r.state.messages == head + [StoppedByUser];
    case Failed(e) =>
      assert r.state.messages == head;
      assert a.messages == head + [ScanError(e)];
    case Exhausted =>
      assert r.state.running && r.state.messages == head;
      assert a.messages == head + Closing(r, stopAt, |acq|);
  }

  /**
    The completion message is logged exactly when every cell was visited and
    no stop landed on the final flag test; an error entry, exactly when an
    acquisition raised, and then it is the last entry.
   */
  lemma WorkerReports(n: nat, path: seq<Cell>, s: AppState, stopAt: nat, acq: seq<Acquisition>, pct: seq<int>)
    requires OnGrid(n, path) && Distinct(path) && |acq| == |pct| == |path|
    requires s.running
    ensures var r := Worker(n, path, s, stopAt, acq, pct);
      && |s.messages| < |r.state.messages| && r.state.messages[..|s.messages|] == s.messages
      && r.state.messages[|s.messages|] == Initializing
      && (Completed in r.state.messages[|s.messages|..] <==> Completes(r, stopAt, |acq|))
      && ((exists m :: m in r.state.messages[|s.messages|..] && m.ScanError?) <==> r.ending.Failed?)
      && (r.ending.Failed? ==> r.state.messages[|r.state.messages| - 1] == ScanError(r.ending.error))
  {
    var r := Worker(n, path, s, stopAt, acq, pct);
    WorkerLog(n, path, s, stopAt, acq, pct);
    StepLogReportsOnly(path, 0, Started(r));
    ClosingReports(s.messages, StepLog(path, 0, Started(r)), r, stopAt, |acq|);
  }

  /** What the worker's log shape says about completion and error entries. */
  lemma ClosingReports(log: seq<Message>, loop: seq<Message>, r: Run, stopAt: nat, total: nat)
    requires Completed !in loop && forall m :: m in loop ==> !m.ScanError?
    ensures var all := log + [Initializing] + loop + Closing(r, stopAt, total);
      && |log| < |all| && all[..|log|] == log && all[|log|] == Initializing
      && (Completed in all[|log|..] <==> Completes(r, stopAt, total))
      && ((exists m :: m in all[|log|..] && m.ScanError?) <==> r.ending.Failed?)
      && (r.ending.Failed? ==> all[|all| - 1] == ScanError(r.ending.error))
  {
    var added := [Initializing] + loop + Closing(r, stopAt, total);
    var all := log + added;
    assert all == log + [Initializing] + loop + Closing(r, stopAt, total);
    assert all[|log|..] == added;
    assert all[..|log|] == log;
    assert forall m :: m in added <==> m == Initializing || m in loop || m in Closing(r, stopAt, total);
    if r.ending.Failed? {
      assert added[|added| - 1] == ScanError(r.ending.error);
    }
  }

  /** The worker leaves published the position and percentage of the last started cell. */
  lemma WorkerPosition(n: nat, path: seq<Cell>, s: AppState, stopAt: nat, acq: seq<Acquisition>, pct: seq<int>)
    requires OnGrid(n, path) && Distinct(path) && |acq| == |pct| == |path|
    requires s.running
    ensures var r := Worker(n, path, s, stopAt, acq, pct);
      && (Started(r) > 0 ==>
            && r.state.position == TargetOf(ScanOrigin, ScanSpacingNm, path[Started(r) - 1])
            && r.state.progress.row == path[Started(r) - 1].row
            && r.state.progress.col == path[Started(r) - 1].col
            && r.state.progress.percentage == pct[Started(r) - 1])
      && (Started(r) == 0 ==> r.state.position == s.position && r.state.progress == s.progress.(total := |acq|))
  {
    var s0 := AddStatusMessage(s.(progress := s.progress.(total := |acq|)), Initializing);
    IteratePosition(n, path, s0, Zeros(n), 0, stopAt, acq, pct);
    var r := Iterate(n, path, s0, Zeros(n), 0, stopAt, acq, pct);
    assert Worker(n, path, s, stopAt, acq, pct) == Run(Conclude(r, stopAt, |acq|), r.grid, r.steps, r.ending);
  }

  /** The published grid is the worker's grid once a cell was written or the scan completed. */
  lemma WorkerGridImage(n: nat, path: seq<Cell>, s: AppState, stopAt: nat, acq: seq<Acquisition>, pct: seq<int>)
    requires OnGrid(n, path) && Distinct(path) && |acq| == |pct| == |path|
    requires s.running
    ensures var r := Worker(n, path, s, stopAt, acq, pct);
      && (r.steps > 0 || Completes(r, stopAt, |acq|) ==> r.state.gridImage == Some(r.grid))
      && (r.steps == 0 && !Completes(r, stopAt, |acq|) ==> r.state.gridImage == s.gridImage)
  {
    var s0 := AddStatusMessage(s.(progress := s.progress.(total := |acq|)), Initializing);
    IterateGridImage(n, path, s0, Zeros(n), 0, stopAt, acq, pct);
    var r := Iterate(n, path, s0, Zeros(n), 0, stopAt, acq, pct);
    assert Worker(n, path, s, stopAt, acq, pct) == Run(Conclude(r, stopAt, |acq|), r.grid, r.steps, r.ending);
    assert r.ending.Exhausted? ==> r.state.running;
  }

  /** `run_scan`: the worker over the application's 10-by-10 order. */
  function RunScan(s: AppState, stopAt: nat, acq: seq<Acquisition>, pct: seq<int>): (r: Run)
    requires s.running
    requires |acq| == |pct| == ScanGridSize * ScanGridSize
    ensures !r.state.running
    ensures r.state.progress.total == 100 && |r.state.messages| > |s.messages|
    ensures r.steps <= 100 && Started(r) <= 100 && Started(r) <= stopAt
    ensures forall t :: 0 <= t < r.steps ==> acq[t].Measured?
    ensures r.ending.Exhausted? ==> r.steps == 100
    ensures r.ending.Stopped? ==> r.steps == stopAt
    ensures r.ending.Failed? ==> acq[r.steps] == Raised(r.ending.error)
    ensures FilledUpTo(r.grid, ScanGridSize, SnakeOrder(ScanGridSize), Intensities(acq), r.steps)
  {
    SnakeOrderLength(ScanGridSize);
    SnakeOrderOnGrid(ScanGridSize);
    SnakeOrderIsPermutation(ScanGridSize);
    WorkerLog(ScanGridSize, SnakeOrder(ScanGridSize), s, stopAt, acq, pct);
    Worker(ScanGridSize, SnakeOrder(ScanGridSize), s, stopAt, acq, pct)
  }

  /**
    A stop landing before step k < 100, with every earlier acquisition
    succeeding: exactly steps 0..k-1 ran, their cells hold their
    intensities, every other cell is still zero, and no completion is logged.
   */
  lemma RunScanStopped(s: AppState, stopAt: nat, acq: seq<Acquisition>, pct: seq<int>)
    requires s.running
    requires |acq| == |pct| == ScanGridSize * ScanGridSize
    requires stopAt < 100 && forall t :: 0 <= t < stopAt ==> acq[t].Measured?
    ensures var r := RunScan(s, stopAt, acq, pct);
      && r.ending.Stopped? && r.steps == stopAt
      && r.state.messages[|r.state.messages| - 1] == StoppedByUser
      && Completed !in r.state.messages[|s.messages|..]
      && forall c :: InGrid(ScanGridSize, c) ==>
           && 0 <= SnakeIndex(ScanGridSize, c) < 100
           && r.grid[c.row - 1][c.col - 1] ==
                if SnakeIndex(ScanGridSize, c) < stopAt then acq[SnakeIndex(ScanGridSize, c)].intensity else 0.0
  {
    var r := RunScan(s, stopAt, acq, pct);
    SnakeOrderLength(ScanGridSize);
    SnakeOrderOnGrid(ScanGridSize);
    SnakeOrderIsPermutation(ScanGridSize);
    WorkerLog(ScanGridSize, SnakeOrder(ScanGridSize), s, stopAt, acq, pct);
    WorkerReports(ScanGridSize, SnakeOrder(ScanGridSize), s, stopAt, acq, pct);
    forall c | InGrid(ScanGridSize, c)
      ensures 0 <= SnakeIndex(ScanGridSize, c) < 100
      ensures r.grid[c.row - 1][c.col - 1] ==
                if SnakeIndex(ScanGridSize, c) < stopAt then acq[SnakeIndex(ScanGridSize, c)].intensity else 0.0
    {
      FilledCell(r.grid, ScanGridSize, Intensities(acq), stopAt, c);
    }
  }

  /**
    With no stop and no failing acquisition the scan visits all 100 cells,
    every cell holds its own intensity, and completion is logged.
   */
  lemma RunScanCompletes(s: AppState, stopAt: nat, acq: seq<Acquisition>, pct: seq<int>)
    requires s.running
    requires |acq| == |pct| == ScanGridSize * ScanGridSize
    requires stopAt > 100 && forall t :: 0 <= t < 100 ==> acq[t].Measured?
    ensures var r := RunScan(s, stopAt, acq, pct);
      && r.ending.Exhausted? && r.steps == 100
      && Completed in r.state.messages[|s.messages|..]
      && r.state.gridImage == Some(r.grid)
      && forall c :: InGrid(ScanGridSize, c) ==>
           && 0 <= SnakeIndex(ScanGridSize, c) < 100
           && r.grid[c.row - 1][c.col - 1] == acq[SnakeIndex(ScanGridSize, c)].intensity
  {
    var r := RunScan(s, stopAt, acq, pct);
    SnakeOrderLength(ScanGridSize);
    SnakeOrderOnGrid(ScanGridSize);
    SnakeOrderIsPermutation(ScanGridSize);
    WorkerReports(ScanGridSize, SnakeOrder(ScanGridSize), s, stopAt, acq, pct);
    WorkerGridImage(ScanGridSize, SnakeOrder(ScanGridSize), s, stopAt, acq, pct);
    forall c | InGrid(ScanGridSize, c)
      ensures 0 <= SnakeIndex(ScanGridSize, c) < 100
      ensures r.grid[c.row - 1][c.col - 1] == acq[SnakeIndex(ScanGridSize, c)].intensity
    {
      FilledCell(r.grid, ScanGridSize, Intensities(acq), 100, c);
    }
  }

  /** Given the floating-point relation per step, the published percentage stays in 0..100 and is 100 after a full run. */
  lemma RunScanProgress(s: AppState, stopAt: nat, acq: seq<Acquisition>, pct: seq<int>)
    requires s.running
    requires |acq| == |pct| == ScanGridSize * ScanGridSize
    requires forall k :: 0 <= k < 100 ==> FloatPercentage(k, 100, pct[k])
    ensures var r := RunScan(s, stopAt, acq, pct);
      && (Started(r) > 0 ==> 0 <= r.state.progress.percentage <= 100)
      && (r.ending.Exhausted? ==> r.state.progress.percentage == 100)
  {
    var r := RunScan(s, stopAt, acq, pct);
    SnakeOrderLength(ScanGridSize);
    SnakeOrderOnGrid(ScanGridSize);
    SnakeOrderIsPermutation(ScanGridSize);
    WorkerPosition(ScanGridSize, SnakeOrder(ScanGridSize), s, stopAt, acq, pct);
    if Started(r) > 0 {
      PercentageRange(Started(r) - 1, 100, pct[Started(r) - 1]);
    }
  }

  /** A finished run leaves the controller idle, so the next start request is accepted. */
  lemma RunScanThenStart(s: AppState, stopAt: nat, acq: seq<Acquisition>, pct: seq<int>)
    requires !s.running
    requires |acq| == |pct| == ScanGridSize * ScanGridSize
    ensures StartScan(s).0.running
    ensures StartScan(RunScan(StartScan(s).0, stopAt, acq, pct).state).1.status == Success
  {
  }
}

=== FILE: snake_path.dfy ===
/**
  The boustrophedon ("snake") visitation order over an n-by-n grid of
  1-based cells: rows top to bottom, columns ascending on odd rows and
  descending on even rows.  The same order drives both the stand-alone
  scan and the web application's simulated scan.
 */
module SnakePath {

  /** A 1-based grid coordinate. */
  datatype Cell = Cell(row: int, col: int)

  predicate InGrid(n: int, c: Cell) {
    1 <= c.row <= n && 1 <= c.col <= n
  }

  /** The column visited at 0-based offset j of row r. */
  function ColumnAt(n: int, r: int, j: int): int {
    if r % 2 == 1 then j + 1 else n - j
  }

  /** Every cell of the path lies in the n-by-n grid. */
  ghost predicate OnGrid(n: int, path: seq<Cell>) {
    forall t :: 0 <= t < |path| ==> InGrid(n, path[t])
  }

  /** No cell occurs twice. */
  ghost predicate Distinct(path: seq<Cell>) {
    forall i, j :: 0 <= i < j < |path| ==> path[i] != path[j]
  }

  /** The cells of row r in the order they are visited. */
  function RowOrder(n: nat, r: int): seq<Cell> {
    seq(n, j => Cell(r, ColumnAt(n, r, j)))
  }

  /** Rows 1..m of the snake, concatenated. */
  function Rows(n: nat, m: nat): seq<Cell> {
    if m == 0 then [] else Rows(n, m - 1) + RowOrder(n, m)
  }

  /** The visitation order; a size that is not positive yields an empty range of rows. */
  function SnakeOrder(n: int): seq<Cell> {
    if n <= 0 then [] else Rows(n, n)
  }

  /** Position of an in-grid cell within the snake order (the inverse of indexing). */
  function SnakeIndex(n: int, c: Cell): int {
    (c.row - 1) * n + (if c.row % 2 == 1 then c.col - 1 else n - c.col)
  }

  function Manhattan(a: Cell, b: Cell): nat {
    (if a.row <= b.row then b.row - a.row else a.row - b.row)
    + (if a.col <= b.col then b.col - a.col else a.col - b.col)
  }

  /** The generator as written: an outer loop over rows and an inner loop over that row's columns. */
  method GenerateSnakeOrder(gridSize: int) returns (order: seq<Cell>)
    ensures order == SnakeOrder(gridSize)
    ensures |order| == if gridSize <= 0 then 0 else gridSize * gridSize
  {
    order := [];
    var row := 1;
    while row <= gridSize
      invariant 1 <= row
      invariant gridSize >= 1 ==> row <= gridSize + 1
      invariant gridSize >= 1 ==> order == Rows(gridSize, row - 1)
      invariant gridSize < 1 ==> order == []
    {
      var k := 0;
      while k < gridSize
        invariant 0 <= k <= gridSize
        invariant order == Rows(gridSize, row - 1) + RowOrder(gridSize, row)[..k]
      {
        var col := if row % 2 == 1 then k + 1 else gridSize - k;
        order := order + [Cell(row, col)];
        k := k + 1;
      }
      assert RowOrder(gridSize, row)[..k] == RowOrder(gridSize, row);
      row := row + 1;
    }
    if gridSize >= 1 {
      RowsLength(gridSize, gridSize);
    }
  }

  // ---------------------------------------------------------------------
  // Arithmetic helpers

  lemma MulLe(a: int, b: int, n: int)
    requires a <= b && n >= 0
    ensures a * n <= b * n
  {
    assert b * n - a * n == (b - a) * n;
  }

  // ---------------------------------------------------------------------
  // Structure of Rows

  lemma {:induction false} RowsLength(n: nat, m: nat)
    ensures |Rows(n, m)| == m * n
  {
    if m > 0 {
      RowsLength(n, m - 1);
      assert m * n == (m - 1) * n + n;
    }
  }

  /** Offset j of row r sits at index (r-1)*n + j. */
  lemma {:induction false} RowsAt(n: nat, m: nat, r: int, j: int)
    requires 1 <= r <= m && 0 <= j < n
    ensures (r - 1) * n + j < |Rows(n, m)|
    ensures Rows(n, m)[(r - 1) * n + j] == Cell(r, ColumnAt(n, r, j))
  {
    RowsLength(n, m);
    RowsLength(n, m - 1);
    MulLe(r, m, n);
    if r < m {
      RowsAt(n, m - 1, r, j);
      MulLe(r, m - 1, n);
    } else {
      assert Rows(n, m)[(r - 1) * n + j] == RowOrder(n, m)[j];
    }
  }

  /** Every entry of Rows lies in the grid, in a row at most m, and SnakeIndex recovers its index. */
  lemma {:induction false} RowsIndex(n: nat, m: nat, k: int)
    requires m <= n && 0 <= k < m * n
    ensures k < |Rows(n, m)|
    ensures InGrid(n, Rows(n, m)[k]) && Rows(n, m)[k].row <= m
    ensures SnakeIndex(n, Rows(n, m)[k]) == k
  {
    RowsLength(n, m);
    RowsLength(n, m - 1);
    if k < (m - 1) * n {
      RowsIndex(n, m - 1, k);
      assert Rows(n, m)[k] == Rows(n, m - 1)[k];
    } else {
      var j := k - (m - 1) * n;
      assert m * n == (m - 1) * n + n;
      assert Rows(n, m)[k] == RowOrder(n, m)[j] == Cell(m, ColumnAt(n, m, j));
    }
  }

  // ---------------------------------------------------------------------
  // Properties of the snake order

  /** n*n cells for a positive size, none otherwise. */
  lemma SnakeOrderLength(n: int)
    ensures |SnakeOrder(n)| == if n <= 0 then 0 else n * n
  {
    if n > 0 {
      RowsLength(n, n);
    }
  }

  /** Row r is visited in columns 1..n when r is odd and n..1 when r is even, starting at index (r-1)*n. */
  lemma SnakeOrderRow(n: int, r: int, j: int)
    requires 1 <= r <= n && 0 <= j < n
    ensures (r - 1) * n + j < |SnakeOrder(n)|
    ensures SnakeOrder(n)[(r - 1) * n + j] == Cell(r, if r % 2 == 1 then j + 1 else n - j)
  {
    RowsAt(n, n, r, j);
  }

  /** Every entry is a grid cell, and SnakeIndex gives back where it sits. */
  lemma SnakeOrderEntry(n: int, k: int)
    requires 0 <= k < |SnakeOrder(n)|
    ensures InGrid(n, SnakeOrder(n)[k])
    ensures SnakeIndex(n, SnakeOrder(n)[k]) == k
  {
    SnakeOrderLength(n);
    RowsIndex(n, n, k);
  }

  /** Every grid cell is visited, at position SnakeIndex. */
  lemma SnakeOrderVisits(n: int, c: Cell)
    requires InGrid(n, c)
    ensures 0 <= SnakeIndex(n, c) < |SnakeOrder(n)|
    ensures SnakeOrder(n)[SnakeIndex(n, c)] == c
  {
    var j := if c.row % 2 == 1 then c.col - 1 else n - c.col;
    assert SnakeIndex(n, c) == (c.row - 1) * n + j;
    assert c == Cell(c.row, if c.row % 2 == 1 then j + 1 else n - j);
    SnakeOrderRow(n, c.row, j);
  }

  /** SnakeIndex is one-to-one on the grid. */
  lemma SnakeIndexInjective(n: int, c: Cell, d: Cell)
    requires InGrid(n, c) && InGrid(n, d)
    requires SnakeIndex(n, c) == SnakeIndex(n, d)
    ensures c == d
  {
    SnakeOrderVisits(n, c);
    SnakeOrderVisits(n, d);
  }

  lemma SnakeOrderOnGrid(n: int)
    ensures OnGrid(n, SnakeOrder(n))
  {
    forall t | 0 <= t < |SnakeOrder(n)|
      ensures InGrid(n, SnakeOrder(n)[t])
    {
      SnakeOrderEntry(n, t);
    }
  }

  /** The order is a permutation of the grid: no cell twice, and exactly the grid's cells. */
  lemma SnakeOrderIsPermutation(n: int)
    ensures forall i, j :: 0 <= i < j < |SnakeOrder(n)| ==> SnakeOrder(n)[i] != SnakeOrder(n)[j]
    ensures forall c :: c in SnakeOrder(n) <==> InGrid(n, c)
  {
    var p := SnakeOrder(n);
    forall i, j | 0 <= i < j < |p|
      ensures p[i] != p[j]
    {
      SnakeOrderEntry(n, i);
      SnakeOrderEntry(n, j);
    }
    forall c
      ensures c in p <==> InGrid(n, c)
    {
      if c in p {
        var k :| 0 <= k < |p| && p[k] == c;
        SnakeOrderEntry(n, k);
      }
      if InGrid(n, c) {
        SnakeOrderVisits(n, c);
      }
    }
  }

  lemma {:induction false} DistinctCount<T>(s: seq<T>, x: T)
    requires forall i, j :: 0 <= i < j < |s| ==> s[i] != s[j]
    ensures multiset(s)[x] == if x in s then 1 else 0
  {
    if |s| > 0 {
      var t := s[..|s| - 1];
      assert s == t + [s[|s| - 1]];
      DistinctCount(t, x);
      assert s[|s| - 1] !in t;
    }
  }

  /** Each grid cell occurs exactly once in the order; nothing else occurs. */
  lemma SnakeOrderVisitsOnce(n: int, c: Cell)
    ensures multiset(SnakeOrder(n))[c] == if InGrid(n, c) then 1 else 0
  {
    SnakeOrderIsPermutation(n);
    DistinctCount(SnakeOrder(n), c);
  }

  /** The scan starts in the top-left corner. */
  lemma SnakeOrderStart(n: int)
    requires n >= 1
    ensures |SnakeOrder(n)| > 0 && SnakeOrder(n)[0] == Cell(1, 1)
  {
    SnakeOrderRow(n, 1, 0);
  }

  /** If t*n lies in (-n, n], then t is 0 or 1. */
  lemma SmallMultiple(t: int, n: int, v: int)
    requires n > 0 && t * n == v && -n < v <= n
    ensures t == 0 || (t == 1 && v == n)
  {
    if t >= 2 {
      MulLe(2, t, n);
    } else if t <= -1 {
      MulLe(t, -1, n);
    }
  }

  /** Consecutive cells are grid neighbours. */
  lemma SnakeOrderAdjacent(n: int, k: int)
    requires 0 <= k && k + 1 < |SnakeOrder(n)|
    ensures Manhattan(SnakeOrder(n)[k], SnakeOrder(n)[k + 1]) == 1
  {
    var p := SnakeOrder(n);
    SnakeOrderEntry(n, k);
    SnakeOrderEntry(n, k + 1);
    var c, d := p[k], p[k + 1];
    var oc := if c.row % 2 == 1 then c.col - 1 else n - c.col;
    var od := if d.row % 2 == 1 then d.col - 1 else n - d.col;
    assert (d.row - c.row) * n == (d.row - 1) * n - (c.row - 1) * n;
    SmallMultiple(d.row - c.row, n, oc + 1 - od);
  }

  /** Rows are visited in ascending order. */
  lemma SnakeOrderRowsAscend(n: int, i: int, j: int)
    requires 0 <= i <= j < |SnakeOrder(n)|
    ensures SnakeOrder(n)[i].row <= SnakeOrder(n)[j].row
  {
    var p := SnakeOrder(n);
    SnakeOrderEntry(n, i);
    SnakeOrderEntry(n, j);
    if p[i].row > p[j].row {
      MulLe(p[j].row, p[i].row - 1, n);
    }
  }
}

=== FILE: stage.dfy ===
/**
  Mapping from 1-based grid cells to integer stage targets in nanometres:
  each axis is `origin + (index - 1) * spacing`, the column driving X and
  the row driving Y.
 */
module Stage {
  import opened SnakePath

  /** A pair of signed axis positions in device units (nanometres). */
  datatype Position = Position(x: int, y: int)

  datatype Option<T> = None | Some(value: T)

  /** Constants of the stand-alone scan. */
  const GridSize: int := 51
  const GridSpacingNm: int := 100000
  const InitialStartNm: int := -2500000
  const MainOrigin: Position := Position(InitialStartNm, InitialStartNm)

  /** The stage target for cell c. */
  function TargetOf(origin: Position, spacing: int, c: Cell): Position {
    Position(origin.x + (c.col - 1) * spacing, origin.y + (c.row - 1) * spacing)
  }

  /** The cell whose target is p, when p lies on the lattice the mapping produces. */
  function CellOf(origin: Position, spacing: int, p: Position): (r: Option<Cell>)
    requires spacing > 0
    ensures r.Some? <==> (p.x - origin.x) % spacing == 0 && (p.y - origin.y) % spacing == 0
  {
    var dx, dy := p.x - origin.x, p.y - origin.y;
    if dx % spacing == 0 && dy % spacing == 0 then
      Some(Cell(dy / spacing + 1, dx / spacing + 1))
    else
      None
  }

  lemma MulDiv(a: int, s: int)
    requires s > 0
    ensures (a * s) % s == 0 && (a * s) / s == a
  {
    var q, m := (a * s) / s, (a * s) % s;
    assert a * s == q * s + m;
    assert (a - q) * s == m;
    if a - q >= 1 {
      MulLe(1, a - q, s);
    } else if a - q <= -1 {
      MulLe(a - q, -1, s);
    }
  }

  /** Recovering the cell from its target gives the cell back. */
  lemma TargetRoundTrip(origin: Position, spacing: int, c: Cell)
    requires spacing > 0
    ensures CellOf(origin, spacing, TargetOf(origin, spacing, c)) == Some(c)
  {
    MulDiv(c.col - 1, spacing);
    MulDiv(c.row - 1, spacing);
  }

  /** Targets on the lattice come from exactly one cell. */
  lemma CellRoundTrip(origin: Position, spacing: int, p: Position)
    requires spacing > 0
    requires CellOf(origin, spacing, p).Some?
    ensures TargetOf(origin, spacing, CellOf(origin, spacing, p).value) == p
  {
  }

  /** Distinct cells have distinct targets when the spacing is positive. */
  lemma TargetInjective(origin: Position, spacing: int, c: Cell, d: Cell)
    requires spacing > 0 && c != d
    ensures TargetOf(origin, spacing, c) != TargetOf(origin, spacing, d)
  {
    TargetRoundTrip(origin, spacing, c);
    TargetRoundTrip(origin, spacing, d);
  }

  /** Moving one column right (one row down) moves X (Y) by exactly one spacing. */
  lemma TargetStep(origin: Position, spacing: int, c: Cell)
    ensures TargetOf(origin, spacing, Cell(c.row, c.col + 1)).x == TargetOf(origin, spacing, c).x + spacing
    ensures TargetOf(origin, spacing, Cell(c.row + 1, c.col)).y == TargetOf(origin, spacing, c).y + spacing
    ensures TargetOf(origin, spacing, Cell(c.row + 1, c.col)).x == TargetOf(origin, spacing, c).x
  {
  }

  /** The range of the signed 32-bit integer each target is passed to the controller as. */
  predicate FitsInt32(v: int) {
    -0x8000_0000 <= v < 0x8000_0000
  }

  /**
    With the stand-alone scan's constants, every target lies in
    [-2500000, 2500000] on both axes, so the 32-bit conversion on the way
    to the controller never wraps.
   */
  lemma MainTargetsInRange(c: Cell)
    requires InGrid(GridSize, c)
    ensures -2500000 <= TargetOf(MainOrigin, GridSpacingNm, c).x <= 2500000
    ensures -2500000 <= TargetOf(MainOrigin, GridSpacingNm, c).y <= 2500000
    ensures FitsInt32(TargetOf(MainOrigin, GridSpacingNm, c).x) && FitsInt32(TargetOf(MainOrigin, GridSpacingNm, c).y)
  {
  }

  /** The centre cell (26, 26) maps to the stage origin; the corners to the extremes. */
  lemma MainTargetLandmarks()
    ensures TargetOf(MainOrigin, GridSpacingNm, Cell(26, 26)) == Position(0, 0)
    ensures TargetOf(MainOrigin, GridSpacingNm, Cell(1, 1)) == Position(-2500000, -2500000)
    ensures TargetOf(MainOrigin, GridSpacingNm, Cell(GridSize, GridSize)) == Position(2500000, 2500000)
  {
  }
}
